=== FILE: README.md ===
# Reviews widget view state, in Dafny

A model of the client-side core of a storefront's product-reviews widget
(`react/Reviews.tsx` with its star picker `react/components/StarPicker.tsx`).
The widget keeps its view state in one record driven by a reducer: decade
paging (`from`/`to` in steps of ten), the chosen sort, the loaded page of
reviews with the five per-star totals and the average, the expanded
("accordion") rows, the write-review form, the user's sign-in state, a
client-side star filter and a "review submitted" flag. Around the reducer
sit a few pure helpers: the star-filter toggle, the "time ago" formatter,
the seeding of expanded rows after a page load, the filtered listing, the
write-review eligibility test and the star picker.

Files and modules:

- `wrappers.dfy` — `Wrappers.Option`, the model of `null`.
- `reviews_state.dfy` — `ReviewsState`: `Review`, `AppSettings`, the
  `State` record, the `Action` set (one constructor per action type, plus
  `Unrecognised` for any other tag) and `InitialState`.
- `accordion.dfy` — `Accordion`: the expanded-row list as a sequence
  (remove every copy / append), and `Indices(n)` = `[0, …, n-1]`.
- `reducer.dfy` — `Reducer`: `Reduce`, `ReduceAll` (dispatch a run of
  actions), the paging steps, the per-action frame (`Writes`), and the
  lemmas about paging, the accordion and the one-way flags.
- `rating_filter.dfy` — `RatingFilter`: `handleToggle` over the pair
  (filter, five-slot highlight array).
- `time_ago.dfy` — `TimeAgo`: unit selection and pluralisation, with an
  independent table-driven statement of the same rule.
- `star_picker.dfy` — `StarPicker`: the filled-star array and the click
  forwarding.
- `reviews_view.dfy` — `ReviewsView`: filtered listing, the comments,
  summary and write-review panels, eligibility, default-open seeding after
  a page response, and a star click wired into SET_RATING.

Behaviour worth knowing, all proved:

- `from <= to` is not kept. Once the total is 11 or more, SET_NEXT_PAGE
  moves `from` by ten without an upper guard, so next on the last page of
  23 reviews goes from `[21,23]` to `[31,23]` (`Reducer.AdvancePastLastPage`,
  and from mount `Reducer.ReachableFromAboveTo`). What is kept is that
  `from` stays on the grid 1, 11, 21, … (`Reducer.ReachablePageAligned`).
- The mount state shows `[1,10]` whatever the total; only a first next caps
  `to` at the total (e.g. `[1,7]` for seven reviews).
- Over 23 reviews the pages are `[1,10]`, `[11,20]`, `[21,23]`, and previous
  from `[21,23]` gives `[11,20]` (`Reducer.PagingScenario`).
- Next-then-previous restores the whole state from any full decade, even
  when the next page is a partial last page (`Reducer.PageRoundTrip`).
- The expanded rows are a list, not a set: toggling restores membership but
  may reorder (`Accordion.ToggleTwiceReorders`). Rows seeded after a page
  load can point past the rows actually loaded
  (`ReviewsView.SeedBeyondPage`).

Not proved, but read off the source: the rendering never reads the
expanded-row list, so seeded rows beyond the page have no visible effect.

## Model

| member | source | states |
|---|---|---|
| Reducer.Reduce | react/Reviews.tsx:207-325 | the reducer never clears `submitted`, `hasTotal` or `hasAverage` |
| Reducer.ReduceFrame | react/Reviews.tsx:207-325 | each action changes only the fields its branch spreads over the old state; the default branch changes none |
| Reducer.AdvancePage | react/Reviews.tsx:209-214 | next page: `to` becomes the smaller of `to + 10` and the total; `from` moves by ten only when the total is at least 11; nothing else changes |
| Reducer.RetreatPage | react/Reviews.tsx:215-220 | previous page from `from >= 11`: the window is the full decade ending at `from - 1` (width 9); on the first decade the state is unchanged |
| Reducer.PageRoundTrip | react/Reviews.tsx:209-220 | with at least 11 reviews and a full-decade window, next then previous gives back the same state |
| Reducer.ReducePageAligned | react/Reviews.tsx:209-220 | every action keeps `from` positive and congruent to 1 modulo 10 |
| Reducer.ReduceAllPageAligned | react/Reviews.tsx:209-220 | any run of actions keeps `from` on the decade grid |
| Reducer.ReachablePageAligned | react/Reviews.tsx:177-220 | every state reachable from the mount state has `from` on the decade grid |
| Reducer.AdvancePastLastPage | react/Reviews.tsx:212 | next from `[21,23]` with 23 reviews yields `from = 31 > to = 23` |
| Reducer.ReachableFromAboveTo | react/Reviews.tsx:177-214 | a ten-row page load of 23 reviews and three nexts from mount reach `from = 31`, `to = 23` |
| Reducer.PagingScenario | react/Reviews.tsx:209-220 | 23 reviews page as `[1,10]`, `[11,20]`, `[21,23]`, and back to `[11,20]` |
| Reducer.SmallTotalAdvance | react/Reviews.tsx:209-214 | with fewer than 11 reviews, next from any window whose `to` is not negative keeps `from` and sets `to` to the total |
| Reducer.AccordionToggle | react/Reviews.tsx:231-237 | toggling row `i` flips whether `i` is expanded, keeps every other row's state, and touches no other field |
| Reducer.AccordionToggleTwice | react/Reviews.tsx:231-237 | toggling the same row twice restores membership of every row |
| Reducer.ReduceAllFlagsKept | react/Reviews.tsx:248-323 | no run of actions resets `submitted`, `hasTotal` or `hasAverage` to false |
| Reducer.SubmittedIdempotent | react/Reviews.tsx:317-321 | SET_SUBMITTED marks the state submitted and a second one changes nothing |
| Reducer.UnrecognisedIsNoOp | react/Reviews.tsx:322-323 | an unknown action returns the state unchanged |
| Reducer.SetReviewsLoads | react/Reviews.tsx:248-259 | a page response leaves a loaded list (empty when the response had none), its total and the five bucket totals, and sets `hasTotal` |
| Accordion.Indices | react/Reviews.tsx:771 | the keys of `Array(n)` are `0 … n-1` in order |
| Accordion.RemoveAll | react/Reviews.tsx:235 | removal drops every copy of the index and keeps every copy of every other index (equal multisets apart from the removed index), shortening the list when the index was present |
| Accordion.Toggle | react/Reviews.tsx:233-236 | the toggled index changes membership and every other index keeps it |
| Accordion.RemoveAbsent | react/Reviews.tsx:235 | removing an absent index leaves the list as it was |
| Accordion.RemoveAppended | react/Reviews.tsx:235-236 | appending an index absent from the list and removing it again gives back the list |
| Accordion.RemoveAllNoDup | react/Reviews.tsx:235 | removal keeps a duplicate-free list duplicate-free |
| Accordion.ToggleNoDup | react/Reviews.tsx:233-236 | toggling keeps a duplicate-free list duplicate-free |
| Accordion.ToggleTwiceMembership | react/Reviews.tsx:233-236 | toggling twice restores membership of every index |
| Accordion.ToggleTwiceFromCollapsed | react/Reviews.tsx:233-236 | expanding a collapsed row and collapsing it again restores the identical list |
| Accordion.ToggleTwiceReorders | react/Reviews.tsx:233-236 | with rows 1 then 2 expanded, toggling 1 twice gives `[2,1]`, not the original list |
| Accordion.IndicesNoDup | react/Reviews.tsx:771 | the seeded index list has no duplicates |
| RatingFilter.HandleToggle | react/Reviews.tsx:496-522 | the new filter is none when the clicked bucket was the filter and the clicked bucket otherwise; the highlight array keeps five slots |
| RatingFilter.HandleToggleInStep | react/Reviews.tsx:496-522 | if the highlight array marks exactly the filter's slot before a click, it does so after |
| RatingFilter.InStepSingleHighlight | react/Reviews.tsx:496-522 | while in step, at most one bucket is highlighted and it is the filter's |
| RatingFilter.HandleToggleTwice | react/Reviews.tsx:496-522 | two clicks on one bucket from no filter restore both the filter and the highlight array |
| RatingFilter.ClicksStayInStep | react/Reviews.tsx:496-522 | any run of bucket clicks keeps filter and highlight in step |
| RatingFilter.InitialInStep | react/Reviews.tsx:493-495 | on mount the reducer's filter is null (initial state, line 203) and the five-slot highlight array is all false, which is in step |
| TimeAgo.FirstPositive | react/Reviews.tsx:557-592 | the reference rule's search returns the first positive unit, or none when no unit is positive |
| TimeAgo.Format | react/Reviews.tsx:557-592 | the text is either three tokens (a positive number, a unit word that is singular iff the number is 1, then "ago") or the single "just now" token |
| TimeAgo.FormatMatchesPrescribed | react/Reviews.tsx:557-592 | the formatter's if-cascade equals the table rule "first positive unit, singular iff 1, then ago; else just now" on every input |
| TimeAgo.FormatShape | react/Reviews.tsx:557-592 | three tokens ending in "ago" iff some unit is positive, "just now" iff none is; the number is the first positive unit's; the singular word iff it is 1; never a week word |
| TimeAgo.FormatExamples | react/Reviews.tsx:557-592 | now gives "just now"; 1 h 30 min gives "1 hour ago"; 1 y 1 mo 4 d gives "1 year ago"; 3 d gives "3 days ago" |
| StarPicker.Stars | react/components/StarPicker.tsx:13-19 | the picker always draws exactly five stars |
| StarPicker.StarsArePrefix | react/components/StarPicker.tsx:13-19 | a filled star has only filled stars before it |
| StarPicker.CountFilledThreshold | react/components/StarPicker.tsx:15-17 | a five-slot array true exactly below `m` has `min(5, max(0, m))` true slots |
| StarPicker.FilledCount | react/components/StarPicker.tsx:15-17 | the number of filled stars is `min(5, max(0, floor(rating)))` |
| StarPicker.FilledCountWhole | react/components/StarPicker.tsx:15-17 | for a whole rating 0..5 exactly that many stars, the first ones, are filled |
| StarPicker.HandleStarClick | react/components/StarPicker.tsx:25-32 | a click forwards the star's own index |
| ReviewsView.ClickStar | react/Reviews.tsx:903-909 | a click on star `index` stores rating `index + 1`, in 1..5 for the five stars, and changes no other field |
| ReviewsView.ClickStarFills | react/Reviews.tsx:903-909 | clicking star `i` of 0..4 stores rating `i + 1` in 1..5, drawn as `i + 1` filled stars, and changes nothing else |
| ReviewsView.Passes | react/Reviews.tsx:964-965 | a row passes when no filter is set or the filter equals its rating |
| ReviewsView.VisibleFrom | react/Reviews.tsx:963-1108 | listed positions from `i` on are exactly the rows passing the filter, in increasing page order |
| ReviewsView.Visible | react/Reviews.tsx:963-1108 | a row is listed iff no filter is set or its rating equals the filter; listed rows stay in page order |
| ReviewsView.VisibleFromUnfiltered | react/Reviews.tsx:1038-1107 | with no filter the rows from `i` on are all listed, in order |
| ReviewsView.VisibleUnfiltered | react/Reviews.tsx:1038-1107 | with no filter the listing is the whole page in page order |
| ReviewsView.VisibleFromStep | react/Reviews.tsx:963-1108 | each row adds one to the listing exactly when it passes the filter |
| ReviewsView.ListedCountMatches | react/Reviews.tsx:963-1108 | the listing from `i` on has as many rows as pass the filter from `i` on |
| ReviewsView.BucketsPartitionFrom | react/Reviews.tsx:963-1037 | rows rated 1..5 from `i` on pass exactly one of the five star filters, so the five pass counts sum to the rows remaining |
| ReviewsView.BucketsPartition | react/Reviews.tsx:963-1037 | the five star filters together list every row of the page exactly once |
| ReviewsView.Comments | react/Reviews.tsx:946-1187 | loading until a page arrives; an empty page shows the thanks once submitted, and otherwise offers the review form exactly when the visitor may write a review (the login prompt otherwise); a non-empty page lists exactly the rows passing the filter |
| ReviewsView.EmptyPageSignInOffersForm | react/Reviews.tsx:1160-1178 | on an empty, unsubmitted page with anonymous reviews barred, the form is offered iff the visitor is signed in, and signing in replaces the login prompt with the form |
| ReviewsView.SetFilterOnlyRelists | react/Reviews.tsx:312-316 | setting the filter changes no other field and relists the same page under the new filter |
| ReviewsView.Summary | react/Reviews.tsx:806-808 | the summary shows loading until both a total and the average have arrived, nothing when the total is 0, else the summary |
| ReviewsView.SummaryStaysLoaded | react/Reviews.tsx:806-808 | once past loading the summary never shows loading again, whatever is dispatched |
| ReviewsView.CanWriteReviewIff | react/Reviews.tsx:872-875 | writing is allowed exactly when anonymous reviews are allowed or the user is signed in |
| ReviewsView.CanWriteReview | react/Reviews.tsx:872-875 | a signed-in user may always write a review, and anyone may when anonymous reviews are allowed |
| ReviewsView.EligibilityFrame | react/Reviews.tsx:872-875 | only SET_SETTINGS and SET_AUTHENTICATED change eligibility; signing in never removes it |
| ReviewsView.Write | react/Reviews.tsx:806-941 | hidden unless the summary block is shown; then a login link iff not eligible, thanks iff eligible and submitted, otherwise the form with the star picker shown iff the form is collapsed |
| ReviewsView.WriteHiddenAtMount | react/Reviews.tsx:806-808 | at mount the summary shows its loading message and no write-review area |
| ReviewsView.ThankYouSticks | react/Reviews.tsx:806-893 | after a submission the thanks stay under every action except settings or sign-in changes and actions that set the total to 0 |
| ReviewsView.ZeroTotalHidesThankYou | react/Reviews.tsx:806-808 | setting the total to 0 hides the thanks with the rest of the summary block |
| ReviewsView.ToggleFormFlipsPicker | react/Reviews.tsx:895-925 | toggling the form flips whether the star picker is shown |
| ReviewsView.SeedOpenReviews | react/Reviews.tsx:764-773 | the seed exists iff `Array` accepts the length `min(defaultOpenCount, total)`, and is then `0 … n-1` with `n` at most both inputs |
| ReviewsView.PageLoadedActions | react/Reviews.tsx:755-773 | a page response dispatches SET_REVIEWS with the response's rows and totals, followed by SET_OPEN_REVIEWS of `0 … n-1` exactly when `Array` accepts `n = min(defaultOpenCount, total)` |
| ReviewsView.PageLoadSeeds | react/Reviews.tsx:755-773 | after a page response the page, its total and its five per-star totals are loaded and the expanded rows are exactly `0 … min(defaultOpenCount, total) - 1`, duplicate-free; when that length throws, the old expanded rows remain |
| ReviewsView.SeedBeyondPage | react/Reviews.tsx:764-773 | with 15 default-open rows, 23 reviews and 10 rows loaded, row 14 is expanded although only 10 rows exist |

## Left out

- GraphQL queries and their effect wiring (settings, the five bucket totals,
  the average, the page fetch and its query variables such as the approval
  `status`): external I/O; only the page response's dispatches are modelled
  (`ReviewsView.PageLoadedActions`), the other responses are actions anyone
  may dispatch.
- The session read that dispatches SET_AUTHENTICATED: host-global I/O; it
  is an action with any argument.
- Splitting a millisecond difference into UTC calendar fields through
  `Date`: the components are inputs (`TimeAgo.Elapsed`).
- Bar-chart widths (`total_k / total * 100`) and `average.toFixed(1)`:
  floating point display.
- Markup, JSON-LD, CSS handles, intl message texts (modelled as abstract
  tokens) and the `Star` component's drawing.
- React's asynchronous dispatch and batching, and the race between an old
  and a newer page response: concurrency; dispatches are applied one at a
  time in the order given.
- RatingFilter.HandleToggle: the in-place mutation of the shared highlight
  array in the "same bucket" branch is modelled as an ordinary update of
  that slot; calls with a bucket outside 1..5 (which JavaScript would
  accept as out-of-range array writes) are excluded, since only buckets
  1..5 have controls.
- Numbers are unbounded integers (the average a real); JavaScript doubles
  lose precision above 2^53, `NaN` and fractional counts are not modelled.
- The mount state's extra `reviewSubmitted` field is never read and is
  omitted from the record.
- `settings` is never null in the model; the `state.settings &&` guards of
  the eligibility test are therefore always true.

=== FILE: accordion.dfy ===
/**
  The list of expanded review rows. The source keeps it as a JavaScript
  array: toggling an index that is present drops every copy of it
  (`filter`), toggling one that is absent appends it.
 */
module Accordion {

  /** No index occurs twice. */
  predicate NoDup(s: seq<int>) {
    forall p, q :: 0 <= p < q < |s| ==> s[p] != s[q]
  }

  /** `[0, 1, ..., n - 1]`, the keys of a JavaScript `Array(n)`. */
  function Indices(n: nat): (r: seq<int>)
    ensures |r| == n
    ensures forall k :: 0 <= k < n ==> r[k] == k
  {
    seq(n, k => k)
  }

  /** `s.filter(i => i !== x)`: drop every occurrence of `x` and keep every other element with its multiplicity. */
  function RemoveAll(s: seq<int>, x: int): (r: seq<int>)
    ensures x !in r
    ensures forall y :: y != x ==> (y in r <==> y in s)
    ensures |r| <= |s|
    ensures x in s ==> |r| < |s|
    ensures multiset(r) == multiset(s)[x := 0]
  {
    if |s| == 0 then []
    else
      assert s == [s[0]] + s[1..];
      if s[0] == x then RemoveAll(s[1..], x)
      else [s[0]] + RemoveAll(s[1..], x)
  }

  /** Flip whether row `i` is expanded. */
  function Toggle(open: seq<int>, i: int): (r: seq<int>)
    ensures i in r <==> i !in open
    ensures forall j :: j != i ==> (j in r <==> j in open)
  {
    if i in open then RemoveAll(open, i) else open + [i]
  }

  /** Removing an index that does not occur leaves the list as it was. */
  lemma {:induction false} RemoveAbsent(s: seq<int>, x: int)
    requires x !in s
    ensures RemoveAll(s, x) == s
  {
    if |s| > 0 {
      assert s[0] != x;
      assert x !in s[1..];
      RemoveAbsent(s[1..], x);
      assert s == [s[0]] + s[1..];
    }
  }

  /** Appending `x` and then removing it gives back the original list. */
  lemma {:induction false} RemoveAppended(s: seq<int>, x: int)
    requires x !in s
    ensures RemoveAll(s + [x], x) == s
  {
    if |s| == 0 {
      assert s + [x] == [x];
    } else {
      assert (s + [x])[1..] == s[1..] + [x];
      assert x !in s[1..];
      RemoveAppended(s[1..], x);
      assert s == [s[0]] + s[1..];
    }
  }

  /** Removal keeps a duplicate-free list duplicate-free. */
  lemma {:induction false} RemoveAllNoDup(s: seq<int>, x: int)
    requires NoDup(s)
    ensures NoDup(RemoveAll(s, x))
  {
    if |s| > 0 {
      assert NoDup(s[1..]) by {
        forall p, q | 0 <= p < q < |s[1..]|
          ensures s[1..][p] != s[1..][q]
        {
          assert s[1..][p] == s[p + 1] && s[1..][q] == s[q + 1];
        }
      }
      RemoveAllNoDup(s[1..], x);
      if s[0] != x {
        var rest := RemoveAll(s[1..], x);
        assert s[0] !in s[1..] by {
          forall q | 0 <= q < |s[1..]|
            ensures s[1..][q] != s[0]
          {
            assert s[1..][q] == s[q + 1];
          }
        }
        assert s[0] !in rest;
        var r := [s[0]] + rest;
        forall p, q | 0 <= p < q < |r|
          ensures r[p] != r[q]
        {
          if p == 0 {
            assert r[q] == rest[q - 1];
            assert r[q] in rest;
          } else {
            assert r[p] == rest[p - 1] && r[q] == rest[q - 1];
          }
        }
      }
    }
  }

  /** Toggling keeps a duplicate-free list duplicate-free. */
  lemma ToggleNoDup(open: seq<int>, i: int)
    requires NoDup(open)
    ensures NoDup(Toggle(open, i))
  {
    if i in open {
      RemoveAllNoDup(open, i);
    } else {
      var r := open + [i];
      forall p, q | 0 <= p < q < |r|
        ensures r[p] != r[q]
      {
        if q == |open| {
          assert r[p] == open[p];
        } else {
          assert r[p] == open[p] && r[q] == open[q];
        }
      }
    }
  }

  /** Toggling twice restores which indices are expanded, for every index. */
  lemma ToggleTwiceMembership(open: seq<int>, i: int, j: int)
    ensures j in Toggle(Toggle(open, i), i) <==> j in open
  {
  }

  /** Toggling an index that was collapsed and then toggling it again restores the very same list. */
  lemma ToggleTwiceFromCollapsed(open: seq<int>, i: int)
    requires i !in open
    ensures Toggle(Toggle(open, i), i) == open
  {
    assert i in open + [i];
    RemoveAppended(open, i);
  }

  /**
    Toggling twice does not restore the list itself in general: with `1`
    expanded before `2`, collapsing and re-expanding `1` moves it to the end.
   */
  lemma ToggleTwiceReorders()
    ensures Toggle(Toggle([1, 2], 1), 1) == [2, 1]
    ensures Toggle(Toggle([1, 2], 1), 1) != [1, 2]
  {
  }

  /** The list of the first `n` indices has no duplicates. */
  lemma IndicesNoDup(n: nat)
    ensures NoDup(Indices(n))
  {
  }
}

=== FILE: rating_filter.dfy ===
/**
  The star-bucket filter toggle `handleToggle` of react/Reviews.tsx. It
  keeps two pieces of state in step: the reducer's `filter` (set through
  SET_FILTER) and a five-slot array saying which bucket control is drawn
  as active. Both updates are modelled as one sequential step.
 */
module RatingFilter {
  import opened Wrappers
  import ReviewsState

  /** The reducer's filter together with the component's highlight array. */
  datatype FilterUi = FilterUi(filter: Option<int>, highlight: seq<bool>)

  /** The highlight array the component starts with: no bucket active. */
  const NoHighlight: seq<bool> := [false, false, false, false, false]

  /** On mount: the reducer's initial filter and the component's initial highlight array. */
  const InitialUi: FilterUi := FilterUi(ReviewsState.InitialState.filter, NoHighlight)

  /** Slot `k` (0-based) stands for the bucket of `k + 1` stars. */
  predicate Selects(filter: Option<int>, k: int) {
    filter.Some? && filter.value == k + 1
  }

  /** The highlight array has five slots and marks exactly the slot of the active filter. */
  predicate InStep(ui: FilterUi) {
    && |ui.highlight| == 5
    && (ui.filter.Some? ==> 1 <= ui.filter.value <= 5)
    && forall k :: 0 <= k < 5 ==> (ui.highlight[k] <==> Selects(ui.filter, k))
  }

  /**
    A click on the control of bucket `value`. With no filter it selects
    `value`; on the active bucket it flips that slot back and clears the
    filter; on another bucket it switches to `value`.
   */
  function HandleToggle(ui: FilterUi, value: int): (r: FilterUi)
    requires 1 <= value <= 5
    requires |ui.highlight| == 5
    ensures ui.filter == Some(value) ==> r.filter.None?
    ensures ui.filter != Some(value) ==> r.filter == Some(value)
    ensures |r.highlight| == 5
  {
    if ui.filter.None? then
      FilterUi(Some(value), NoHighlight[value - 1 := true])
    else if value == ui.filter.value then
      FilterUi(None, ui.highlight[value - 1 := !ui.highlight[value - 1]])
    else
      FilterUi(Some(value), NoHighlight[value - 1 := true])
  }

  /** A click keeps the highlight array in step with the filter. */
  lemma HandleToggleInStep(ui: FilterUi, value: int)
    requires 1 <= value <= 5
    requires InStep(ui)
    ensures InStep(HandleToggle(ui, value))
  {
  }

  /** In step, at most one bucket is highlighted, and it is the filter's. */
  lemma InStepSingleHighlight(ui: FilterUi, k: int, m: int)
    requires InStep(ui)
    requires 0 <= k < 5 && 0 <= m < 5
    requires ui.highlight[k] && ui.highlight[m]
    ensures k == m && ui.filter == Some(k + 1)
  {
  }

  /** Two clicks on the same bucket from no filter give back the initial filter and highlight. */
  lemma HandleToggleTwice(ui: FilterUi, value: int)
    requires 1 <= value <= 5
    requires InStep(ui) && ui.filter.None?
    ensures HandleToggle(HandleToggle(ui, value), value) == ui
  {
  }

  /** Any run of clicks from an in-step state (the mount state among them) keeps the highlight array in step with the filter. */
  lemma {:induction false} ClicksStayInStep(ui: FilterUi, clicks: seq<int>)
    requires InStep(ui)
    requires forall i :: 0 <= i < |clicks| ==> 1 <= clicks[i] <= 5
    ensures InStep(HandleToggleAll(ui, clicks))
    decreases |clicks|
  {
    if |clicks| > 0 {
      HandleToggleInStep(ui, clicks[0]);
      ClicksStayInStep(HandleToggle(ui, clicks[0]), clicks[1..]);
    }
  }

  /** The filter state after a run of clicks on bucket controls. */
  function HandleToggleAll(ui: FilterUi, clicks: seq<int>): FilterUi
    requires |ui.highlight| == 5
    requires forall i :: 0 <= i < |clicks| ==> 1 <= clicks[i] <= 5
    decreases |clicks|
  {
    if |clicks| == 0 then ui else HandleToggleAll(HandleToggle(ui, clicks[0]), clicks[1..])
  }

  /** The mount state has no filter, no highlighted bucket, and is in step. */
  lemma InitialInStep()
    ensures InitialUi.filter.None?
    ensures forall k :: 0 <= k < |InitialUi.highlight| ==> !InitialUi.highlight[k]
    ensures InStep(InitialUi)
  {
  }
}

=== FILE: reducer.dfy ===
/**
  The reducer of react/Reviews.tsx: a total, synchronous function from a
  state and an action to the next state. Every branch is a record update
  that copies the old state and overwrites a few fields.
 */
module Reducer {
  import opened Wrappers
  import opened ReviewsState
  import Accordion

  /** The fields of the state record, used to state what an action may write. */
  datatype Field =
    | Rating | Sort | From | To | Reviews | Total
    | Total5 | Total4 | Total3 | Total2 | Total1
    | Average | HasTotal | HasAverage | ShowForm | OpenReviews
    | Settings | UserAuthenticated | Filter | Submitted

  /** `s` and `t` hold the same value in field `f`. */
  predicate SameField(s: State, t: State, f: Field) {
    match f
    case Rating => s.rating == t.rating
    case Sort => s.sort == t.sort
    case From => s.from == t.from
    case To => s.to == t.to
    case Reviews => s.reviews == t.reviews
    case Total => s.total == t.total
    case Total5 => s.total5 == t.total5
    case Total4 => s.total4 == t.total4
    case Total3 => s.total3 == t.total3
    case Total2 => s.total2 == t.total2
    case Total1 => s.total1 == t.total1
    case Average => s.average == t.average
    case HasTotal => s.hasTotal == t.hasTotal
    case HasAverage => s.hasAverage == t.hasAverage
    case ShowForm => s.showForm == t.showForm
    case OpenReviews => s.openReviews == t.openReviews
    case Settings => s.settings == t.settings
    case UserAuthenticated => s.userAuthenticated == t.userAuthenticated
    case Filter => s.filter == t.filter
    case Submitted => s.submitted == t.submitted
  }

  /** Whether action `a`'s branch names field `f` in its record update. */
  predicate Writes(a: Action, f: Field) {
    match a
    case NextPage => f == From || f == To
    case PrevPage => f == From || f == To
    case SetRating(_) => f == Rating
    case ToggleReviewForm => f == ShowForm
    case ToggleReviewAccordion(_) => f == OpenReviews
    case SetOpenReviews(_) => f == OpenReviews
    case SetSelectedSort(_) => f == Sort
    case SetReviews(_, _, _, _, _, _, _) =>
      f.Reviews? || f.Total? || f.Total5? || f.Total4? || f.Total3? || f.Total2? || f.Total1? || f.HasTotal?
    case SetTotal(_) => f == Total || f == HasTotal
    case SetTotal5(_) => f == Total5 || f == HasTotal
    case SetTotal4(_) => f == Total4 || f == HasTotal
    case SetTotal3(_) => f == Total3 || f == HasTotal
    case SetTotal2(_) => f == Total2 || f == HasTotal
    case SetTotal1(_) => f == Total1 || f == HasTotal
    case SetAverage(_) => f == Average || f == HasAverage
    case SetSettings(_) => f == Settings
    case SetAuthenticated(_) => f == UserAuthenticated
    case SetFilter(_) => f == Filter
    case SetSubmitted => f == Submitted
    case Unrecognised(_) => false
  }

  /** Every field that action `a` does not write is the same in `s` and `t`. */
  predicate Unchanged(s: State, t: State, a: Action) {
    forall f :: !Writes(a, f) ==> SameField(s, t, f)
  }

  /**
    SET_NEXT_PAGE. `to` moves ten items on but never past `total`; `from`
    moves ten items on unless there are fewer than eleven reviews. There is
    no check that `from` stays at or below `to`.
   */
  function AdvancePage(s: State): (r: State)
    ensures r.to <= s.total && r.to <= s.to + 10
    ensures r.to == s.total || r.to == s.to + 10
    ensures s.total < 11 ==> r.from == s.from
    ensures s.total >= 11 ==> r.from == s.from + 10
    ensures r == s.(from := r.from, to := r.to)
  {
    s.(from := if s.total < 11 then s.from else s.from + 10,
       to := if s.to + 10 > s.total then s.total else s.to + 10)
  }

  /**
    SET_PREV_PAGE. From the second decade on, the window becomes the full
    decade that ends just before the old `from`; on the first decade nothing
    changes.
   */
  function RetreatPage(s: State): (r: State)
    ensures s.from >= 11 ==> r.from == s.from - 10 && r.to == s.from - 1
    ensures s.from >= 11 ==> r.to - r.from == 9
    ensures s.from <= 10 ==> r == s
    ensures r == s.(from := r.from, to := r.to)
  {
    s.(from := s.from - (if s.from < 11 then 0 else 10),
       to := if s.from > 10 then s.from - 1 else s.to)
  }

  /**
    The reducer. The flags `submitted`, `hasTotal` and `hasAverage` are
    only ever set; `ReduceFrame` states which fields each action writes.
   */
  function Reduce(s: State, a: Action): (r: State)
    ensures s.submitted ==> r.submitted
    ensures s.hasTotal ==> r.hasTotal
    ensures s.hasAverage ==> r.hasAverage
  {
    match a
    case NextPage => AdvancePage(s)
    case PrevPage => RetreatPage(s)
    case SetRating(rating) => s.(rating := rating)
    case ToggleReviewForm => s.(showForm := !s.showForm)
    case ToggleReviewAccordion(i) => s.(openReviews := Accordion.Toggle(s.openReviews, i))
    case SetOpenReviews(ns) => s.(openReviews := ns)
    case SetSelectedSort(sort) => s.(sort := sort)
    case SetReviews(reviews, total, t5, t4, t3, t2, t1) =>
      s.(reviews := Some(reviews.GetOr([])), total := total,
         total5 := t5, total4 := t4, total3 := t3, total2 := t2, total1 := t1,
         hasTotal := true)
    case SetTotal(total) => s.(total := total, hasTotal := true)
    case SetTotal5(n) => s.(total5 := n, hasTotal := true)
    case SetTotal4(n) => s.(total4 := n, hasTotal := true)
    case SetTotal3(n) => s.(total3 := n, hasTotal := true)
    case SetTotal2(n) => s.(total2 := n, hasTotal := true)
    case SetTotal1(n) => s.(total1 := n, hasTotal := true)
    case SetAverage(average) => s.(average := average, hasAverage := true)
    case SetSettings(settings) => s.(settings := settings)
    case SetAuthenticated(b) => s.(userAuthenticated := b)
    case SetFilter(filter) => s.(filter := filter)
    case SetSubmitted => s.(submitted := true)
    case Unrecognised(_) => s
  }

  /** Each action leaves every field it does not write as it was. */
  lemma ReduceFrame(s: State, a: Action)
    ensures Unchanged(s, Reduce(s, a), a)
  {
  }

  /** The state after dispatching `acts` in order. */
  function ReduceAll(s: State, acts: seq<Action>): State
    decreases |acts|
  {
    if |acts| == 0 then s else ReduceAll(Reduce(s, acts[0]), acts[1..])
  }

  // ---------------------------------------------------------------- paging

  /** Next then previous gives back the very same state from any full decade, the last partial one included. */
  lemma PageRoundTrip(s: State)
    requires s.total >= 11 && s.from >= 1 && s.to == s.from + 9
    ensures Reduce(Reduce(s, NextPage), PrevPage) == s
  {
  }

  /** `from` never leaves the decade grid 1, 11, 21, ... */
  predicate PageAligned(s: State) {
    s.from >= 1 && s.from % 10 == 1
  }

  /** Every action keeps `from` on the decade grid. */
  lemma ReducePageAligned(s: State, a: Action)
    requires PageAligned(s)
    ensures PageAligned(Reduce(s, a))
  {
  }

  /** Any run of actions keeps `from` on the decade grid. */
  lemma {:induction false} ReduceAllPageAligned(s: State, acts: seq<Action>)
    requires PageAligned(s)
    ensures PageAligned(ReduceAll(s, acts))
    decreases |acts|
  {
    if |acts| > 0 {
      ReducePageAligned(s, acts[0]);
      ReduceAllPageAligned(Reduce(s, acts[0]), acts[1..]);
    }
  }

  /** Every state reachable from mount has `from` on the decade grid. */
  lemma ReachablePageAligned(acts: seq<Action>)
    ensures PageAligned(ReduceAll(InitialState, acts))
  {
    ReduceAllPageAligned(InitialState, acts);
  }

  /**
    `from <= to` is not kept: once there are eleven reviews or more, next on
    the last page moves `from` past `to`.
   */
  lemma AdvancePastLastPage(s: State)
    requires s.from == 21 && s.to == 23 && s.total == 23
    ensures Reduce(s, NextPage).from == 31
    ensures Reduce(s, NextPage).to == 23
  {
  }

  /** From mount: load a ten-row page of 23 reviews and press next three times; `from` ends above `to`. */
  lemma ReachableFromAboveTo()
    ensures var t := ReduceAll(InitialState,
                                [SetReviews(Some(SamplePage), 23, 0, 0, 0, 0, 0), NextPage, NextPage, NextPage]);
            t.from == 31 && t.to == 23
  {
    var acts := [SetReviews(Some(SamplePage), 23, 0, 0, 0, 0, 0), NextPage, NextPage, NextPage];
    var s1 := Reduce(InitialState, acts[0]);
    var s2 := Reduce(s1, NextPage);
    var s3 := Reduce(s2, NextPage);
    var s4 := Reduce(s3, NextPage);
    assert ReduceAll(InitialState, acts) == ReduceAll(s1, acts[1..]);
    assert ReduceAll(s1, acts[1..]) == ReduceAll(s2, acts[2..]);
    assert ReduceAll(s2, acts[2..]) == ReduceAll(s3, acts[3..]);
    assert ReduceAll(s3, acts[3..]) == ReduceAll(s4, []);
  }

  /** Decade paging over 23 reviews: [1,10] -> [11,20] -> [21,23] -> back to [11,20]. */
  lemma PagingScenario()
    ensures var s1 := Reduce(InitialState, SetReviews(Some(SamplePage), 23, 0, 0, 0, 0, 0));
            var s2 := Reduce(s1, NextPage);
            var s3 := Reduce(s2, NextPage);
            var s4 := Reduce(s3, PrevPage);
            s1.from == 1 && s1.to == 10 &&
            s2.from == 11 && s2.to == 20 &&
            s3.from == 21 && s3.to == 23 &&
            s4.from == 11 && s4.to == 20
  {
  }

  /** With fewer than eleven reviews, next keeps `from` and caps `to` at the total, from any window whose `to` is not negative. */
  lemma SmallTotalAdvance(s: State)
    requires s.total < 11 && s.to >= 0
    ensures Reduce(s, NextPage).from == s.from
    ensures Reduce(s, NextPage).to == s.total
  {
  }

  // ------------------------------------------------------------- accordion

  /** Toggling row `i` flips whether `i` is expanded and no other row, and touches no other field. */
  lemma AccordionToggle(s: State, i: int)
    ensures var r := Reduce(s, ToggleReviewAccordion(i));
            && (i in r.openReviews <==> i !in s.openReviews)
            && (forall j :: j != i ==> (j in r.openReviews <==> j in s.openReviews))
            && r == s.(openReviews := r.openReviews)
  {
  }

  /** Toggling the same row twice restores which rows are expanded. */
  lemma AccordionToggleTwice(s: State, i: int, j: int)
    ensures var r := Reduce(Reduce(s, ToggleReviewAccordion(i)), ToggleReviewAccordion(i));
            j in r.openReviews <==> j in s.openReviews
  {
  }

  // --------------------------------------------------------- one-way flags

  /** `t` keeps every flag that `s` has set. */
  predicate FlagsKept(s: State, t: State) {
    && (s.submitted ==> t.submitted)
    && (s.hasTotal ==> t.hasTotal)
    && (s.hasAverage ==> t.hasAverage)
  }

  /** No run of actions resets `submitted`, `hasTotal` or `hasAverage`. */
  lemma {:induction false} ReduceAllFlagsKept(s: State, acts: seq<Action>)
    ensures FlagsKept(s, ReduceAll(s, acts))
    decreases |acts|
  {
    if |acts| > 0 {
      var s1 := Reduce(s, acts[0]);
      ReduceAllFlagsKept(s1, acts[1..]);
    }
  }

  /** Marking the review as submitted twice is the same as once, and it is then marked. */
  lemma SubmittedIdempotent(s: State)
    ensures Reduce(s, SetSubmitted).submitted
    ensures Reduce(Reduce(s, SetSubmitted), SetSubmitted) == Reduce(s, SetSubmitted)
  {
  }

  /** An action the reducer does not know leaves the state as it is. */
  lemma UnrecognisedIsNoOp(s: State, tag: string)
    ensures Reduce(s, Unrecognised(tag)) == s
  {
  }

  /** A page response always leaves a loaded (possibly empty) list and the totals it carries. */
  lemma SetReviewsLoads(s: State, reviews: Option<seq<Review>>, total: int,
                        t5: int, t4: int, t3: int, t2: int, t1: int)
    ensures var r := Reduce(s, SetReviews(reviews, total, t5, t4, t3, t2, t1));
            && r.reviews.Some?
            && (reviews.None? ==> r.reviews.value == [])
            && (reviews.Some? ==> r.reviews == reviews)
            && r.total == total && r.hasTotal
            && r.total5 == t5 && r.total4 == t4 && r.total3 == t3 && r.total2 == t2 && r.total1 == t1
  {
  }
}

=== FILE: reviews_state.dfy ===
/**
  The view state of the reviews widget and the closed set of actions its
  reducer accepts, as declared in react/Reviews.tsx.

  Numbers of the source are JavaScript doubles; every quantity the reducer
  touches except the average rating is an integer, so they are modelled as
  `int`. The average is a `real`.
 */
module ReviewsState {
  import opened Wrappers

  /** One review row as returned by the reviews-by-product query. */
  datatype Review = Review(
    id: int,
    cacheId: int,
    productId: string,
    rating: int,
    title: string,
    text: string,
    location: Option<string>,
    reviewerName: string,
    shopperId: string,
    reviewDateTime: string,
    verifiedPurchaser: bool
  )

  /** The store's review policy, loaded once from the app settings query. */
  datatype AppSettings = AppSettings(
    allowAnonymousReviews: bool,
    requireApproval: bool,
    useLocation: bool,
    defaultOpen: bool,
    defaultOpenCount: int
  )

  /** The reducer's state record. */
  datatype State = State(
    rating: int,                   // star rating picked in the write-review form, 0 = none
    sort: string,                  // sort key handed to the reviews query
    from: int,                     // first displayed item, 1-based
    to: int,                       // last displayed item, 1-based, inclusive
    reviews: Option<seq<Review>>,  // None until the first page has loaded
    total: int,
    total5: int,
    total4: int,
    total3: int,
    total2: int,
    total1: int,
    average: real,
    hasTotal: bool,
    hasAverage: bool,
    showForm: bool,
    openReviews: seq<int>,         // expanded accordion rows; a list, duplicates allowed
    settings: AppSettings,
    userAuthenticated: bool,
    filter: Option<int>,           // client-side star filter, None = show all
    submitted: bool
  )

  /** The actions of the reducer; `Unrecognised` stands for any other `type` tag. */
  datatype Action =
    | NextPage
    | PrevPage
    | SetRating(rating: int)
    | ToggleReviewForm
    | ToggleReviewAccordion(reviewNumber: int)
    | SetOpenReviews(reviewNumbers: seq<int>)
    | SetSelectedSort(sort: string)
    | SetReviews(reviews: Option<seq<Review>>, total: int,
                 total5: int, total4: int, total3: int, total2: int, total1: int)
    | SetTotal(total: int)
    | SetTotal5(total5: int)
    | SetTotal4(total4: int)
    | SetTotal3(total3: int)
    | SetTotal2(total2: int)
    | SetTotal1(total1: int)
    | SetAverage(average: real)
    | SetSettings(settings: AppSettings)
    | SetAuthenticated(authenticated: bool)
    | SetFilter(filter: Option<int>)
    | SetSubmitted
    | Unrecognised(tag: string)

  /** A review row used in worked examples. */
  const SampleReview: Review := Review(0, 0, "p", 5, "", "", None, "", "", "", false)

  /** A full page of ten rows, as a worked example's page response. */
  const SamplePage: seq<Review> := seq(10, _ => SampleReview)

  /** The sort key the widget starts with (most recent first). */
  const DefaultSort: string := "ReviewDateTime:desc"

  /** The settings in force until the app settings query answers. */
  const DefaultSettings: AppSettings := AppSettings(
    allowAnonymousReviews := false,
    requireApproval := true,
    useLocation := false,
    defaultOpen := false,
    defaultOpenCount := 0
  )

  /** The state the widget is mounted with. */
  const InitialState: State := State(
    rating := 0,
    sort := DefaultSort,
    from := 1,
    to := 10,
    reviews := None,
    total := 0,
    total5 := 0,
    total4 := 0,
    total3 := 0,
    total2 := 0,
    total1 := 0,
    average := 0.0,
    hasTotal := false,
    hasAverage := false,
    showForm := false,
    openReviews := [],
    settings := DefaultSettings,
    userAuthenticated := false,
    filter := None,
    submitted := false
  )
}

=== FILE: reviews_view.dfy ===
/**
  Pure derivations the reviews component makes from the reducer's state:
  which rows of the loaded page are listed, which panels are shown, who may
  write a review, the rows expanded after a page load, and the star
  picker's wiring into SET_RATING.
 */
module ReviewsView {
  import opened Wrappers
  import opened ReviewsState
  import Reducer
  import Accordion
  import StarPicker

  // ------------------------------------------------------ filtered listing

  /** Whether a row passes the client-side star filter. */
  predicate Passes(r: Review, filter: Option<int>)
    ensures Passes(r, filter) <==> filter == None || filter == Some(r.rating)
  {
    filter.None? || r.rating == filter.value
  }

  /** Strictly increasing, hence duplicate-free and in page order. */
  predicate Increasing(xs: seq<nat>) {
    forall p, q :: 0 <= p < q < |xs| ==> xs[p] < xs[q]
  }

  /**
    The page positions, from `i` on, of the rows that are rendered: every
    row when there is no filter, otherwise the rows whose rating equals it.
   */
  function VisibleFrom(reviews: seq<Review>, filter: Option<int>, i: nat): (r: seq<nat>)
    requires i <= |reviews|
    ensures forall k :: 0 <= k < |r| ==> i <= r[k] < |reviews| && Passes(reviews[r[k]], filter)
    ensures forall j {:trigger j in r} :: i <= j < |reviews| && Passes(reviews[j], filter) ==> j in r
    ensures Increasing(r)
    decreases |reviews| - i
  {
    if i == |reviews| then []
    else if Passes(reviews[i], filter) then [i] + VisibleFrom(reviews, filter, i + 1)
    else VisibleFrom(reviews, filter, i + 1)
  }

  /** The page positions of the rendered rows. */
  function Visible(reviews: seq<Review>, filter: Option<int>): (r: seq<nat>)
    ensures forall j :: 0 <= j < |reviews| ==> (j in r <==> Passes(reviews[j], filter))
    ensures forall k :: 0 <= k < |r| ==> r[k] < |reviews|
    ensures Increasing(r)
  {
    VisibleFrom(reviews, filter, 0)
  }

  /** Without a filter every row of the page from `i` on is listed, in order. */
  lemma {:induction false} VisibleFromUnfiltered(reviews: seq<Review>, i: nat)
    requires i <= |reviews|
    ensures |VisibleFrom(reviews, None, i)| == |reviews| - i
    ensures forall k :: 0 <= k < |reviews| - i ==> VisibleFrom(reviews, None, i)[k] == i + k
    decreases |reviews| - i
  {
    if i < |reviews| {
      VisibleFromUnfiltered(reviews, i + 1);
    }
  }

  /** Without a filter the listing is the whole page in page order. */
  lemma VisibleUnfiltered(reviews: seq<Review>)
    ensures Visible(reviews, None) == Accordion.Indices(|reviews|)
  {
    VisibleFromUnfiltered(reviews, 0);
  }

  /** One step of the listing: row `i` is listed first iff it passes the filter. */
  lemma VisibleFromStep(reviews: seq<Review>, filter: Option<int>, i: nat)
    requires i < |reviews|
    ensures VisibleFrom(reviews, filter, i)
            == (if Passes(reviews[i], filter) then [i] else []) + VisibleFrom(reviews, filter, i + 1)
    ensures |VisibleFrom(reviews, filter, i)|
            == (if Passes(reviews[i], filter) then 1 else 0) + |VisibleFrom(reviews, filter, i + 1)|
  {
  }

  /** How many rows from `i` on pass the filter, counted without building the listing. */
  function ListedCount(reviews: seq<Review>, filter: Option<int>, i: nat): nat
    requires i <= |reviews|
    decreases |reviews| - i
  {
    if i == |reviews| then 0
    else (if Passes(reviews[i], filter) then 1 else 0) + ListedCount(reviews, filter, i + 1)
  }

  /** The listing from `i` on has exactly as many rows as pass the filter. */
  lemma {:induction false} ListedCountMatches(reviews: seq<Review>, filter: Option<int>, i: nat)
    requires i <= |reviews|
    ensures |VisibleFrom(reviews, filter, i)| == ListedCount(reviews, filter, i)
    decreases |reviews| - i
  {
    if i < |reviews| {
      ListedCountMatches(reviews, filter, i + 1);
      VisibleFromStep(reviews, filter, i);
    }
  }

  /** The number of rows passing the 5-, 4-, 3-, 2- and 1-star filters from `i` on. */
  function BucketSum(reviews: seq<Review>, i: nat): nat
    requires i <= |reviews|
  {
    ListedCount(reviews, Some(5), i) + ListedCount(reviews, Some(4), i) +
    ListedCount(reviews, Some(3), i) + ListedCount(reviews, Some(2), i) +
    ListedCount(reviews, Some(1), i)
  }

  /** Rows rated 1 to 5 each pass exactly one star filter, from `i` on. */
  lemma {:induction false} BucketsPartitionFrom(reviews: seq<Review>, i: nat)
    requires i <= |reviews|
    requires forall j :: 0 <= j < |reviews| ==> 1 <= reviews[j].rating <= 5
    ensures BucketSum(reviews, i) == |reviews| - i
    decreases |reviews| - i
  {
    if i < |reviews| {
      BucketsPartitionFrom(reviews, i + 1);
    }
  }

  /** With ratings 1 to 5, the five star filters together list every row of the page once. */
  lemma BucketsPartition(reviews: seq<Review>)
    requires forall j :: 0 <= j < |reviews| ==> 1 <= reviews[j].rating <= 5
    ensures |Visible(reviews, Some(5))| + |Visible(reviews, Some(4))| + |Visible(reviews, Some(3))|
            + |Visible(reviews, Some(2))| + |Visible(reviews, Some(1))| == |reviews|
  {
    BucketsPartitionFrom(reviews, 0);
    ListedCountMatches(reviews, Some(5), 0);
    ListedCountMatches(reviews, Some(4), 0);
    ListedCountMatches(reviews, Some(3), 0);
    ListedCountMatches(reviews, Some(2), 0);
    ListedCountMatches(reviews, Some(1), 0);
  }

  // ---------------------------------------------------------------- panels

  /**
    What the comments area shows. On an empty page that has not been
    submitted to, `formOffered` tells the review form (true) from the
    login prompt (false); it is false while the thanks are shown.
   */
  datatype CommentsPanel =
    | CommentsLoading
    | NoReviews(thankYou: bool, formOffered: bool)
    | Listing(shown: seq<nat>)

  /**
    Loading until a page arrives; an empty page shows the thanks once
    submitted, and otherwise the empty state with the review form for an
    eligible visitor or the login prompt; a non-empty page lists the
    filtered rows.
   */
  function Comments(s: State): (p: CommentsPanel)
    ensures s.reviews.None? <==> p.CommentsLoading?
    ensures p.NoReviews? <==> s.reviews.Some? && |s.reviews.value| == 0
    ensures p.NoReviews? ==> (p.thankYou <==> s.submitted)
    ensures p.NoReviews? ==> (p.formOffered <==> !s.submitted && CanWriteReview(s.settings, s.userAuthenticated))
    ensures p.Listing? ==> forall j :: 0 <= j < |s.reviews.value| ==>
                             (j in p.shown <==> Passes(s.reviews.value[j], s.filter))
  {
    match s.reviews
    case None => CommentsLoading
    case Some(rs) =>
      if |rs| == 0 then
        NoReviews(s.submitted, !s.submitted && CanWriteReview(s.settings, s.userAuthenticated))
      else Listing(Visible(rs, s.filter))
  }

  /**
    On an empty page without a submission, a visitor barred by the settings
    sees the login prompt, and signing in turns it into the review form.
   */
  lemma EmptyPageSignInOffersForm(s: State)
    requires s.reviews == Some([]) && !s.submitted && !s.settings.allowAnonymousReviews
    ensures Comments(s).formOffered <==> s.userAuthenticated
    ensures Comments(Reducer.Reduce(s, SetAuthenticated(true))) == NoReviews(false, true)
  {
    CanWriteReviewIff(s.settings, s.userAuthenticated);
    CanWriteReviewIff(s.settings, true);
  }

  /** Changing the star filter changes only which rows of the same page are listed; no other field moves. */
  lemma SetFilterOnlyRelists(s: State, filter: Option<int>)
    requires s.reviews.Some? && |s.reviews.value| > 0
    ensures var t := Reducer.Reduce(s, SetFilter(filter));
            && t == s.(filter := filter)
            && Comments(t) == Listing(Visible(s.reviews.value, filter))
  {
  }

  /** What the rating summary block shows. */
  datatype SummaryPanel = SummaryLoading | SummaryHidden | SummaryShown

  /** Loading until both a total and the average have arrived; hidden when the total is zero. */
  function Summary(s: State): (p: SummaryPanel)
    ensures p.SummaryLoading? <==> !(s.hasTotal && s.hasAverage)
    ensures p.SummaryShown? <==> s.hasTotal && s.hasAverage && s.total != 0
  {
    if !s.hasTotal || !s.hasAverage then SummaryLoading
    else if s.total == 0 then SummaryHidden
    else SummaryShown
  }

  /** Once the summary has left its loading state it never returns to it. */
  lemma SummaryStaysLoaded(s: State, acts: seq<Action>)
    requires !Summary(s).SummaryLoading?
    ensures !Summary(Reducer.ReduceAll(s, acts)).SummaryLoading?
  {
    Reducer.ReduceAllFlagsKept(s, acts);
  }

  // ------------------------------------------------------------ write panel

  /** The write-review eligibility test, written as the source writes it. */
  predicate CanWriteReview(settings: AppSettings, authenticated: bool)
    ensures authenticated ==> CanWriteReview(settings, authenticated)
    ensures settings.allowAnonymousReviews ==> CanWriteReview(settings, authenticated)
  {
    settings.allowAnonymousReviews || (!settings.allowAnonymousReviews && authenticated)
  }

  /** One may write a review exactly when anonymous reviews are allowed or one is signed in. */
  lemma CanWriteReviewIff(settings: AppSettings, authenticated: bool)
    ensures CanWriteReview(settings, authenticated) <==> settings.allowAnonymousReviews || authenticated
    ensures !CanWriteReview(settings, authenticated) <==> !settings.allowAnonymousReviews && !authenticated
  {
  }

  /** Only SET_SETTINGS and SET_AUTHENTICATED can change eligibility, and signing in never removes it. */
  lemma EligibilityFrame(s: State, a: Action)
    ensures !a.SetSettings? && !a.SetAuthenticated? ==>
              (CanWriteReview(Reducer.Reduce(s, a).settings, Reducer.Reduce(s, a).userAuthenticated)
               <==> CanWriteReview(s.settings, s.userAuthenticated))
    ensures a == SetAuthenticated(true) && CanWriteReview(s.settings, s.userAuthenticated) ==>
              CanWriteReview(Reducer.Reduce(s, a).settings, Reducer.Reduce(s, a).userAuthenticated)
  {
  }

  /** The write-review area of the summary block. */
  datatype WritePanel = WriteHidden | LoginLink | ThankYou | ReviewForm(pickerShown: bool)

  /**
    Hidden unless the summary block itself is shown; then a login link
    unless eligible; thanks once submitted; else the form, with the star
    picker while the form is collapsed.
   */
  function Write(s: State): (p: WritePanel)
    ensures p.WriteHidden? <==> !Summary(s).SummaryShown?
    ensures p.LoginLink? <==> Summary(s).SummaryShown? && !s.settings.allowAnonymousReviews && !s.userAuthenticated
    ensures p.ThankYou? <==> Summary(s).SummaryShown? && (s.settings.allowAnonymousReviews || s.userAuthenticated) && s.submitted
    ensures p.ReviewForm? ==> (p.pickerShown <==> !s.showForm)
  {
    if !Summary(s).SummaryShown? then WriteHidden
    else if CanWriteReview(s.settings, s.userAuthenticated) then
      (if s.submitted then ThankYou else ReviewForm(!s.showForm))
    else LoginLink
  }

  /** At mount the write-review area is hidden behind the summary's loading message. */
  lemma WriteHiddenAtMount()
    ensures Summary(InitialState).SummaryLoading?
    ensures Write(InitialState) == WriteHidden
  {
  }

  /** Whether an action sets the review total to zero. */
  predicate ZeroesTotal(a: Action) {
    (a.SetTotal? || a.SetReviews?) && a.total == 0
  }

  /**
    After a submission the thanks stay, whatever is dispatched, unless
    settings or sign-in change or the total is set to zero (which hides
    the whole summary block).
   */
  lemma ThankYouSticks(s: State, a: Action)
    requires Write(s) == ThankYou
    requires !a.SetSettings? && !a.SetAuthenticated? && !ZeroesTotal(a)
    ensures Write(Reducer.Reduce(s, a)) == ThankYou
  {
    EligibilityFrame(s, a);
    Reducer.ReduceFrame(s, a);
    var t := Reducer.Reduce(s, a);
    assert Reducer.Writes(a, Reducer.Total) || Reducer.SameField(s, t, Reducer.Total);
  }

  /** A zero total hides the thanks together with the rest of the summary block. */
  lemma ZeroTotalHidesThankYou(s: State)
    requires Write(s) == ThankYou
    ensures Write(Reducer.Reduce(s, SetTotal(0))) == WriteHidden
  {
  }

  /** Toggling the form hides the star picker when it was showing, and the other way round. */
  lemma ToggleFormFlipsPicker(s: State)
    requires Write(s).ReviewForm?
    ensures var p := Write(Reducer.Reduce(s, ToggleReviewForm));
            p.ReviewForm? && p.pickerShown == !Write(s).pickerShown
  {
  }

  // --------------------------------------------------- default-open seeding

  /** The largest length `Array(n)` accepts; larger or negative lengths throw RangeError. */
  const MaxArrayLength: int := 0xFFFF_FFFF

  function Min(a: int, b: int): int {
    if a <= b then a else b
  }

  /**
    `[...Array(min(defaultOpenCount, total)).keys()]`: the first rows to
    expand, or None when `Array` throws for that length.
   */
  function SeedOpenReviews(defaultOpenCount: int, total: int): (r: Option<seq<int>>)
    ensures r.Some? <==> 0 <= Min(defaultOpenCount, total) <= MaxArrayLength
    ensures r.Some? ==> |r.value| == Min(defaultOpenCount, total)
                        && |r.value| <= defaultOpenCount && |r.value| <= total
                        && (forall k :: 0 <= k < |r.value| ==> r.value[k] == k)
  {
    var n := Min(defaultOpenCount, total);
    if 0 <= n <= MaxArrayLength then Some(Accordion.Indices(n)) else None
  }

  /** The body of a successful reviews query. */
  datatype PageResponse = PageResponse(
    data: Option<seq<Review>>,
    total: int,
    total5: int, total4: int, total3: int, total2: int, total1: int
  )

  /**
    The dispatches a page response triggers, given the settings the request
    was issued under: SET_REVIEWS, then SET_OPEN_REVIEWS unless building
    the index list threw.
   */
  function PageLoadedActions(settings: AppSettings, resp: PageResponse): (r: seq<Action>)
    ensures 1 <= |r| <= 2
    ensures r[0] == SetReviews(resp.data, resp.total, resp.total5, resp.total4, resp.total3, resp.total2, resp.total1)
    ensures var n := Min(settings.defaultOpenCount, resp.total);
            |r| == 2 <==> 0 <= n <= MaxArrayLength
    ensures |r| == 2 ==> r[1] == SetOpenReviews(Accordion.Indices(Min(settings.defaultOpenCount, resp.total)))
  {
    var load := SetReviews(resp.data, resp.total, resp.total5, resp.total4, resp.total3, resp.total2, resp.total1);
    match SeedOpenReviews(settings.defaultOpenCount, resp.total)
    case Some(ns) => [load, SetOpenReviews(ns)]
    case None => [load]
  }

  /**
    After a page response the page, its total and its five per-star totals are loaded and the
    expanded rows are exactly `0 .. min(defaultOpenCount, total) - 1`; when
    that length is out of range the old expanded rows survive.
   */
  lemma PageLoadSeeds(s: State, settings: AppSettings, resp: PageResponse)
    ensures var t := Reducer.ReduceAll(s, PageLoadedActions(settings, resp));
            var n := Min(settings.defaultOpenCount, resp.total);
            && t.reviews == Some(resp.data.GetOr([]))
            && t.total == resp.total && t.hasTotal
            && t.total5 == resp.total5 && t.total4 == resp.total4 && t.total3 == resp.total3
            && t.total2 == resp.total2 && t.total1 == resp.total1
            && (0 <= n <= MaxArrayLength ==> t.openReviews == Accordion.Indices(n))
            && (0 <= n <= MaxArrayLength ==> Accordion.NoDup(t.openReviews))
            && (!(0 <= n <= MaxArrayLength) ==> t.openReviews == s.openReviews)
  {
    var acts := PageLoadedActions(settings, resp);
    var s1 := Reducer.Reduce(s, acts[0]);
    assert Reducer.ReduceAll(s, acts) == Reducer.ReduceAll(s1, acts[1..]);
    var n := Min(settings.defaultOpenCount, resp.total);
    if 0 <= n <= MaxArrayLength {
      var s2 := Reducer.Reduce(s1, acts[1]);
      assert Reducer.ReduceAll(s1, acts[1..]) == Reducer.ReduceAll(s2, acts[2..]);
      Accordion.IndicesNoDup(n);
    }
  }

  /**
    Seeded rows may lie beyond the loaded page: with 15 rows open by
    default and 23 reviews of which 10 are on the page, row 14 is expanded.
   */
  lemma SeedBeyondPage(s: State)
    ensures var resp := PageResponse(Some(SamplePage), 23, 23, 0, 0, 0, 0);
            var settings := DefaultSettings.(defaultOpenCount := 15);
            var t := Reducer.ReduceAll(s, PageLoadedActions(settings, resp));
            && t.reviews.Some? && |t.reviews.value| == 10
            && 14 in t.openReviews
  {
    var resp := PageResponse(Some(SamplePage), 23, 23, 0, 0, 0, 0);
    var settings := DefaultSettings.(defaultOpenCount := 15);
    PageLoadSeeds(s, settings, resp);
    assert Accordion.Indices(15)[14] == 14;
  }

  // ------------------------------------------------------------- star picker

  /** A click on star `index` of the picker: the handler forwards the index and the parent stores `index + 1`. */
  function ClickStar(s: State, index: int): (r: State)
    ensures r.rating == index + 1
    ensures 0 <= index < 5 ==> 1 <= r.rating <= 5
    ensures r == s.(rating := r.rating)
  {
    Reducer.Reduce(s, SetRating(StarPicker.HandleStarClick(index) + 1))
  }

  /** Clicking star `i` of 0..4 sets rating `i + 1`, which the picker then draws as `i + 1` filled stars, and changes nothing else. */
  lemma ClickStarFills(s: State, i: int)
    requires 0 <= i < 5
    ensures var t := ClickStar(s, i);
            && t == s.(rating := i + 1)
            && 1 <= t.rating <= 5
            && StarPicker.CountFilled(StarPicker.Stars(t.rating as real)) == i + 1
  {
    StarPicker.FilledCountWhole(i + 1);
  }
}

=== FILE: star_picker.dfy ===
/**
  The star picker of react/components/StarPicker.tsx: five stars, the
  first `floor(rating)` of them filled; a click on a star forwards its
  0-based index to the parent.
 */
module StarPicker {

  /** `Math.floor` on the rating. */
  function Floor(rating: real): int {
    rating.Floor
  }

  /** Which of the five stars are drawn filled for `rating`. */
  function Stars(rating: real): (r: seq<bool>)
    ensures |r| == 5
  {
    seq(5, index => index < Floor(rating))
  }

  /** How many entries of `s` are true. */
  function CountFilled(s: seq<bool>): (n: nat)
    ensures n <= |s|
  {
    if |s| == 0 then 0 else (if s[0] then 1 else 0) + CountFilled(s[1..])
  }

  /** `x` clamped into `[lo, hi]`. */
  function Clamp(x: int, lo: int, hi: int): int
    requires lo <= hi
  {
    if x < lo then lo else if x > hi then hi else x
  }

  /** The filled stars form a prefix: a filled star has only filled stars before it. */
  lemma StarsArePrefix(rating: real, i: int, j: int)
    requires 0 <= i <= j < 5
    requires Stars(rating)[j]
    ensures Stars(rating)[i]
  {
  }

  /** A sequence that is true exactly below position `m` has `clamp(m, 0, |s|)` true entries. */
  lemma {:induction false} CountFilledThreshold(s: seq<bool>, m: int)
    requires forall i :: 0 <= i < |s| ==> (s[i] <==> i < m)
    ensures CountFilled(s) == Clamp(m, 0, |s|)
    decreases |s|
  {
    if |s| > 0 {
      var t := s[1..];
      forall i | 0 <= i < |t|
        ensures t[i] <==> i < m - 1
      {
        assert t[i] == s[i + 1];
      }
      CountFilledThreshold(t, m - 1);
    }
  }

  /** The number of filled stars is `min(5, max(0, floor(rating)))`. */
  lemma FilledCount(rating: real)
    ensures CountFilled(Stars(rating)) == Clamp(Floor(rating), 0, 5)
  {
    CountFilledThreshold(Stars(rating), Floor(rating));
  }

  /** For a whole rating 0..5 the picker fills exactly that many stars. */
  lemma FilledCountWhole(k: int)
    requires 0 <= k <= 5
    ensures CountFilled(Stars(k as real)) == k
    ensures var stars := Stars(k as real); forall i :: 0 <= i < 5 ==> (stars[i] <==> i < k)
  {
    FilledCount(k as real);
  }

  /** The click handler forwards the star's index unchanged. */
  function HandleStarClick(index: int): (forwarded: int)
    ensures forwarded == index
  {
    index
  }
}

=== FILE: time_ago.dfy ===
/**
  The unit selection of `getTimeAgo` in react/Reviews.tsx. The source first
  splits the elapsed time into calendar components through `Date`; here
  those components are the input. Message texts are abstract tokens.
 */
module TimeAgo {
  import opened Wrappers

  /** The message ids the formatter may look up. */
  datatype Word =
    | Year | Years | Month | Months | Week | Weeks | Day | Days
    | Hour | Hours | Minute | Minutes | Ago | JustNow

  /** One piece of the rendered text: a number or a looked-up message. */
  datatype Token = Num(n: int) | Msg(word: Word)

  /** The elapsed time as the source decomposes it. */
  datatype Elapsed = Elapsed(years: int, months: int, days: int, hours: int, minutes: int)

  /** `n unit ago`, the unit word singular unless `n` is above one. */
  function Phrase(n: int, singular: Word, plural: Word): seq<Token> {
    [Num(n), Msg(if n > 1 then plural else singular), Msg(Ago)]
  }

  /** The formatter: the first positive unit, largest first, or "just now". */
  function Format(e: Elapsed): (r: seq<Token>)
    ensures |r| == 3 || r == [Msg(JustNow)]
    ensures |r| == 3 ==> r[0].Num? && r[0].n > 0 && r[2] == Msg(Ago)
    ensures |r| == 3 ==> (r[1] in [Msg(Year), Msg(Month), Msg(Day), Msg(Hour), Msg(Minute)] <==> r[0].n == 1)
  {
    if e.years > 0 then Phrase(e.years, Year, Years)
    else if e.months > 0 then Phrase(e.months, Month, Months)
    else if e.days > 0 then Phrase(e.days, Day, Days)
    else if e.hours > 0 then Phrase(e.hours, Hour, Hours)
    else if e.minutes > 0 then Phrase(e.minutes, Minute, Minutes)
    else [Msg(JustNow)]
  }

  // An independent statement of the same rule, by position in a unit table.

  /** The components in priority order. */
  function Units(e: Elapsed): seq<int> {
    [e.years, e.months, e.days, e.hours, e.minutes]
  }

  const SingularWords: seq<Word> := [Year, Month, Day, Hour, Minute]
  const PluralWords: seq<Word> := [Years, Months, Days, Hours, Minutes]

  /** The position of the first positive entry at or after `i`, if any. */
  function FirstPositive(xs: seq<int>, i: nat): (r: Option<nat>)
    requires i <= |xs|
    ensures r.Some? ==> i <= r.value < |xs| && xs[r.value] > 0
    ensures r.Some? ==> forall j :: i <= j < r.value ==> xs[j] <= 0
    ensures r.None? ==> forall j :: i <= j < |xs| ==> xs[j] <= 0
    decreases |xs| - i
  {
    if i == |xs| then None
    else if xs[i] > 0 then Some(i)
    else FirstPositive(xs, i + 1)
  }

  /** The text the rule prescribes: the first positive unit with its number, or "just now". */
  function Prescribed(e: Elapsed): seq<Token> {
    var u := Units(e);
    match FirstPositive(u, 0)
    case Some(k) => [Num(u[k]), Msg(if u[k] == 1 then SingularWords[k] else PluralWords[k]), Msg(Ago)]
    case None => [Msg(JustNow)]
  }

  /** The formatter's cascade agrees with the table-driven rule on every input. */
  lemma FormatMatchesPrescribed(e: Elapsed)
    ensures Format(e) == Prescribed(e)
  {
    var u := Units(e);
    var k := FirstPositive(u, 0);
    if e.years <= 0 {
      assert k == FirstPositive(u, 1);
      if e.months <= 0 {
        assert k == FirstPositive(u, 2);
        if e.days <= 0 {
          assert k == FirstPositive(u, 3);
          if e.hours <= 0 {
            assert k == FirstPositive(u, 4);
          }
        }
      }
    }
  }

  /** A word the formatter can emit for a unit count. */
  predicate IsWeekWord(t: Token) {
    t == Msg(Week) || t == Msg(Weeks)
  }

  /**
    What the output looks like: three tokens ending in "ago" when some
    unit is positive, else the single "just now" token; the week messages
    never appear; the number is the first positive unit's; the singular word
    is used exactly when that number is 1.
   */
  lemma FormatShape(e: Elapsed)
    ensures var r := Format(e);
            var u := Units(e);
            (exists k :: 0 <= k < 5 && u[k] > 0) <==> |r| == 3
    ensures var r := Format(e);
            var u := Units(e);
            (forall k :: 0 <= k < 5 ==> u[k] <= 0) <==> r == [Msg(JustNow)]
    ensures var r := Format(e);
            |r| == 3 ==> r[2] == Msg(Ago)
    ensures forall i :: 0 <= i < |Format(e)| ==> !IsWeekWord(Format(e)[i])
    ensures var r := Format(e);
            var u := Units(e);
            |r| == 3 ==> exists k :: 0 <= k < 5 && u[k] > 0 && (forall j :: 0 <= j < k ==> u[j] <= 0)
                                     && r[0] == Num(u[k])
                                     && (r[1] == Msg(SingularWords[k]) <==> u[k] == 1)
                                     && (r[1] == Msg(PluralWords[k]) <==> u[k] != 1)
  {
    FormatMatchesPrescribed(e);
    var u := Units(e);
    var k := FirstPositive(u, 0);
    if k.Some? {
      assert u[k.value] > 0;
    }
  }

  /** Worked cases: now, 90 minutes, 400 days (1 year, 1 month, 4 days), 3 days. */
  lemma FormatExamples()
    ensures Format(Elapsed(0, 0, 0, 0, 0)) == [Msg(JustNow)]
    ensures Format(Elapsed(0, 0, 0, 1, 30)) == [Num(1), Msg(Hour), Msg(Ago)]
    ensures Format(Elapsed(1, 1, 4, 0, 0)) == [Num(1), Msg(Year), Msg(Ago)]
    ensures Format(Elapsed(0, 0, 3, 0, 0)) == [Num(3), Msg(Days), Msg(Ago)]
  {
  }
}

=== FILE: wrappers.dfy ===
/** A nullable value: `None` stands for JavaScript's `null`. */
module Wrappers {

  datatype Option<+T> = None | Some(value: T) {

    /** Returns the value held in Some, or `default` for None. */
    function GetOr(default: T): T {
      match this
      case Some(v) => v
      case None => default
    }
  }
}
